=== FILE: README.md ===
# docker-image-squash: the layer fold, in Dafny

docker-image-squash flattens a container image into one layer. Two
commands do this. `squash.Squash` works on a `docker save` archive. The
regctl `Squash` pulls the image from a registry. Both replay every layer
archive, bottom layer first, onto a single directory using
`helpers.Untar` or its reader variant `UntarTarReader`. `squash.Squash` then re-tars that directory with
`helpers.Tar`. The regctl `get-file` command reads the same layer list
the other way round: it searches from the top layer down and copies out
the first member with the requested name.

This project models that core as pure functions over an immutable
directory tree and proves what the fold does:

- which member ends up at a path (the last writer within a layer, and
  the topmost layer across layers);
- exactly when a member fails to extract;
- that nothing is ever removed;
- that the re-tarred archive lists the regular files under their
  relative names;
- the error reporting of both registry loops;
- where the top-down lookup agrees with the fold, and where it does not.

Modules, bottom up:

- `Wrappers` holds `Option` and `Result`.
- `Paths` turns header names into paths (`ToPath`, `Join`) and has the
  string functions `TrimPrefix` and `RemoveAll`.
- `Errors` holds the error values.
- `FileSystems` defines the tree (`map<Path, Node>`) and `os.ReadFile`.
- `Archives` defines tar headers and archive tails.
- `Overlay` models `Untar`, which is `os.MkdirAll`, `Step`, `Untar` and
  the fold.
- `Retar` models `Tar`.
- `SavedImage` models squash/squash.go.
- `Registry` models regctl/squashr.go and the lookup in regctl/image.go.
- `Agreement` relates the fold to the lookup.

The directory tree is a map from paths (sequences of components below
the extraction directory, `[]` being that directory itself) to `Dir` or
`File(mode, body)`. `Tree(fs)` says that every present path hangs from a
present directory. A tar archive is the sequence of headers the reader
hands out, followed by how reading ended:

- `EndOfArchive` is `io.EOF`.
- `Corrupt` is an error from `tr.Next`.
- `Truncated(member, reason)` is an `io.Copy` that fails part-way through
  a member's contents.

## Model

| member | source | states |
|---|---|---|
| Paths.ToPathOfJoin | helpers/tar.go:85 | a clean path, joined with "/" and cleaned as `filepath.Join` cleans a header name, comes back unchanged |
| Paths.ToPath | helpers/tar.go:85 | the path a header name denotes below the output directory is clean: no empty or "." components, no separators inside a component |
| Paths.RemoveAllWithoutOccurrence | helpers/tar.go:42 | `strings.Replace(s, src, "", -1)` leaves s unchanged when src does not occur in it |
| FileSystems.ReadFile | squash/squash.go:62-65 | os.ReadFile succeeds exactly on a regular file and returns its contents; a directory is EISDIR; a missing path is ENOTDIR when a regular file lies on the way to it and ENOENT otherwise |
| Overlay.MkdirAll | helpers/tar.go:89-102 | existing nodes are kept, every new node is a directory on the way to p, p ends a directory, failure means an existing prefix of p is a regular file, the tree shape is kept |
| Overlay.MkdirAllSucceeds | helpers/tar.go:89-102 | MkdirAll succeeds whenever no prefix of p is a regular file (the contrapositive of its failure clause) |
| Overlay.MkdirAllFails | helpers/tar.go:89-102 | in a tree, MkdirAll fails whenever some prefix of p is a regular file |
| Overlay.EnsureParent | helpers/tar.go:97-102 | the parent is made only when missing: existing paths are kept, new ones are directories on the way to the target, the tree shape is kept |
| Overlay.WriteFile | helpers/tar.go:103-112 | O_CREATE\|O_TRUNC: the target gets the new contents, the permission bits only when it is created, other paths are unchanged; a directory target or a missing or non-directory parent is refused |
| Overlay.ReadAfterWrite | helpers/tar.go:103-112 | reading back a file just written gives the written contents |
| Overlay.ReadElsewhereAfterWrite | helpers/tar.go:103-112 | a write leaves what reading any other present path gives unchanged |
| Overlay.Step | helpers/tar.go:85-113 | one member: other typeflags and an existing directory target change nothing; only the target can be rewritten, new paths are directories on its way; a regular member leaves its body at the target |
| Overlay.DirStepFailsIff | helpers/tar.go:89-94 | a directory member fails iff its target is missing and lies below a regular file |
| Overlay.RegStepFailsIff | helpers/tar.go:96-106 | a regular-file member fails iff a proper prefix of its target is a regular file or the target is a directory |
| Overlay.RegStepPresentParent | helpers/tar.go:97-106 | the same equivalence when the parent is already there, so MkdirAll is skipped |
| Overlay.RegStepMissingParent | helpers/tar.go:97-102 | the same equivalence when the parent has to be made |
| Overlay.ApplyEntries | helpers/tar.go:70-114 | extraction only adds paths, keeps directories as directories and keeps the tree shape |
| Overlay.Untar | helpers/tar.go:63-115 | Untar returns nil iff the archive ended with io.EOF and no member failed; a failing member returns its error with the effects of the members before it kept, however the archive ends; a `tr.Next` error keeps what was extracted; an io.Copy failure returns an error and keeps every earlier path except the cut member's target, and a cut regular member that could be created leaves its target holding the part that was read; nothing is removed |
| Overlay.ExtractArchive | helpers/tar.go:70-114 | the loop computes exactly Untar, member by member |
| Overlay.FoldArchives | squash/squash.go:32-36 | the layer loop only adds paths and keeps the tree shape |
| Overlay.UnwrittenPathKept | helpers/tar.go:87-113 | a path no regular-file member targets keeps its node, even if extraction later fails |
| Overlay.LastWriterWins | helpers/tar.go:96-112 | within one archive the last regular-file member aimed at a path decides its contents |
| Overlay.LaterLayerWins | squash/squash.go:32-36 | across layers the topmost writer of a path decides its contents |
| Overlay.FoldKeeps | squash/squash.go:32-36 | a path no later layer touches keeps its node through the fold |
| Overlay.InertArchiveChangesNothing | helpers/tar.go:87-113 | an archive of only symlinks, links, devices and fifos leaves the directory as it was |
| Overlay.InertLayersChangeNothing | squash/squash.go:32-36 | a fold of such archives leaves the directory as it was |
| Overlay.FoldReadsToEnd | helpers/tar.go:75-79 | a successful fold read every layer to io.EOF |
| Overlay.WhiteoutIsOrdinaryFile | helpers/tar.go:96-112 | a `.wh.` member is written as a plain file and the path it names for deletion survives |
| Retar.Tar | helpers/tar.go:15-18 | Tar fails with the stat error exactly when src does not exist |
| Retar.EntryName | helpers/tar.go:42 | the member name is never longer than the walked path; for a walked path that starts with a non-empty src which does not occur again after it, the name is the rest of the path less one leading "/"; a path in which src does not occur at all is only trimmed |
| Retar.EntryNameIsRelative | helpers/tar.go:42 | when src does not recur below itself, a member is named by its path relative to src with no leading "/" |
| Retar.EntryNameDropsInnerSource | helpers/tar.go:42 | every occurrence of src is removed: with src "/d", /d/a/d/b is named "a/b" |
| Retar.TarListsRegularFiles | helpers/tar.go:28-60 | the output lists exactly the regular files, each with its mode and contents, and each name cleans back to its path |
| Retar.TarIgnoresDirectories | helpers/tar.go:33-35 | adding a directory does not change the output |
| SavedImage.GetLayers | squash/squash.go:50-59 | taking the layers fails exactly on an empty array, with IndexOutOfRange |
| SavedImage.GetLayersReadsFirstImage | squash/squash.go:50-59 | the layers are the first element's, and the other elements never influence them |
| SavedImage.GetLayersFixture | squash/squash_test.go:14-18 | the repository's test manifest yields four layers |
| SavedImage.Unpack | squash/squash.go:17-29 | each stage's error propagates: opening the image, extracting it, reading orig/manifest.json, decoding it, an empty array (IndexOutOfRange); otherwise the layers are the first element's Layers |
| SavedImage.UnpackedLayersComeFromManifest | squash/squash.go:22-29 | a successful unpack holds the extracted image and the first image's layers as orig/manifest.json lists them |
| SavedImage.UnpackReadsLastManifestMember | squash/squash.go:22-29 | when the saved image extracts cleanly, the layers are the first element's Layers of the last manifest.json member in the archive |
| SavedImage.OpenLayer | squash/squash.go:33 | a layer opens iff its name is a regular file in orig, and it is read as that file's contents |
| SavedImage.FoldLayers | squash/squash.go:31-36 | when every layer opens, the loop is the plain left-to-right fold; it only adds paths and keeps the tree shape |
| SavedImage.FoldLayersAppend | squash/squash.go:32-36 | one more layer acts on what the earlier ones left, unless they already failed |
| SavedImage.FoldLayersStopsAtFailure | squash/squash.go:33-35 | after the first failing layer nothing else is extracted |
| SavedImage.Squash | squash/squash.go:11-48 | a failed run leaves the destination as it was; a successful one always writes it |
| SavedImage.SquashSucceedsIff | squash/squash.go:11-48 | a run succeeds iff unpacking and every layer succeed and some layer created dst; the destination is then Tar of the folded dst |
| SavedImage.ZeroLayersFail | squash/squash.go:31-41 | with no layers dst is never made and Tar's stat fails the run |
| SavedImage.InertLayersFail | squash/squash.go:31-41 | layers with no directory or regular-file member also fail the run |
| Registry.PlatformName | regctl/squashr.go:32-34 | an empty platform option means "local" |
| Registry.SelectPlatform | regctl/squashr.go:35-59 | a list resolves to the chosen platform's manifest; a failed pull of it is wrapped as PlatformPull; a platform it does not hold is PlatformNotFound |
| Registry.ResolveImage | regctl/squashr.go:27-69 | fetch errors propagate; a list resolves through its platform, whose error propagates; a non-image is rejected; an image yields its layers |
| Registry.EmptyOptionMeansLocal | regctl/squashr.go:32-34 | an empty platform option resolves every manifest as "local" does |
| Registry.ListResolvesLikeItsPlatform | regctl/squashr.go:31-69 | a list resolves exactly as the chosen platform's own manifest would |
| Registry.NestedListIsNotAnImage | regctl/squashr.go:26-65 | lists are resolved one level only: a list chosen from a list is not an image |
| Registry.ExtractLayers | regctl/squashr.go:71-91 | layers are requested in order from i; a failure is reported with the index of the last layer requested; paths are only added; the tree shape is kept |
| Registry.SquashImage | regctl/squashr.go:16-92 | a resolution error leaves the output as it was; an image with no layers succeeds without changes |
| Registry.ExtractLayersIsFold | regctl/squashr.go:71-91 | a successful run fetched every layer and left exactly the fold of their archives |
| Registry.ExtractLayersFailsAt | regctl/squashr.go:71-91 | a failed run stopped at layer k; all layers before k succeeded and k's own failure, tagged with k, is returned; nothing is rolled back, so the directory holds the layers below k plus whatever layer k wrote |
| Registry.SquashImageLeavesResidue | regctl/squashr.go:71-89 | when the image resolves but layer k fails, outputDir is left with the fold of the layers below k plus what layer k extracted before failing, and the error is k's own |
| Registry.FindMember | regctl/image.go:175-181 | not-found iff the archive ended cleanly and no member has the name; a member with the name is always found, and the hit is the first such member; a truncated last member with the name, and no earlier one, is found with its contents cut |
| Registry.Search | regctl/image.go:166-209 | a hit is in a layer that has the name, and every layer above lacks it; a miss iff every layer lacks it; an abort carries the stopping layer's own error, wrapped with its index and the stage that failed, and every layer above lacks the file |
| Registry.SearchFindsHolder | regctl/image.go:166-181 | when a layer holds the file and every layer above lacks it, the search hits at that layer with what reading it found |
| Registry.SearchHitsIff | regctl/image.go:166-181 | the search hits exactly when some layer holds the file and every layer above it lacks it |
| Registry.FindTopmost | regctl/image.go:166-207 | the counting-down loop computes exactly Search |
| Registry.RequestedName | regctl/image.go:112-113 | one leading "/" is removed from the filename, and nothing else changes |
| Registry.GetFile | regctl/image.go:106-209 | a resolution error is returned as is |
| Registry.GetFileNotFoundIff | regctl/image.go:166-209 | get-file reports not-found iff every layer was read and lacks the file |
| Agreement.TopmostLookupAgreesWithSquash | regctl/image.go:166-207 | when squashing succeeds and the topmost layer holding the file has it once as a regular file, get-file returns exactly what the squashed directory holds there |
| Agreement.SymlinkOnTopShadowsLookup | regctl/image.go:175-181 | a symlink on top is what get-file finds, while the fold keeps the regular file below |
| Agreement.FirstMemberShadowsLastInLookup | regctl/image.go:175-181 | in a layer naming x twice, get-file returns the first member while extraction leaves the last one's contents |
| Agreement.SquashKeepsTopmostContents | squash/squash.go:31-41 | in a successful run, the output archive holds the topmost regular-file member of a path under its relative name |

## Left out

- I/O is not modelled. That covers `os.MkdirTemp`, `os.Mkdir(origDir)`, opening and closing files, `os.Rename` and its atomicity, and `tw.Close` (its error is ignored). The temporary directory, which is never removed, is a parameter `workDir`. A failed rename is not modelled.
- Decoding manifest.json and decoding layer bytes as tar are parameters (`decodeManifest`, `decodeTar`). The tar reader is represented by what it hands out: headers, then EOF, a reader error or a cut-off member. The `TypeRegA` normalisation the reader does is assumed to have happened.
- `manifest[0]` on an empty array panics in Go. The model returns `IndexOutOfRange` instead.
- The model assumes a process allowed to write every file. In Go, `os.OpenFile(O_WRONLY|O_TRUNC)` fails with EACCES for a non-root process when an earlier layer stored the file without owner write permission (for example 0555). `Overlay.LastWriterWins` and `Overlay.LaterLayerWins` do not describe such runs.
- The model assumes an output directory holding only directories and regular files. This is true for the fresh `orig` and `dst` of squash/squash.go. The regctl `Squash` extracts into the caller's `outputDir`, which may already hold symlinks, and `os.Stat` and `os.OpenFile` follow them.
- `..` components of a header name or of a manifest layer name: `filepath.Join` (helpers/tar.go line 85) and `path.Join(origDir, layer)` (squash/squash.go line 33) resolve them lexically and can leave the directory. The model keeps `..` as an ordinary component in both.
- Permission bits are an opaque `int`. The process umask, and the mode of directories made by `MkdirAll` (0755), are not modelled. Timestamps and ownership are not modelled either.
- `Tar` does not model walk order: the output is a set. It also does not model errors from `filepath.Walk`, `tar.FileInfoHeader`, `WriteHeader` or `io.Copy`. Opening the output without `O_TRUNC` is not modelled: the output is taken as empty beforehand, and the `os.Rename` replaces the destination.
- `Tar` keeps member modes as stored. The header's other fields, including its Name before line 42 rewrites it, are not modelled.
- Nodes other than directories and regular files never arise in the model: `Untar` makes nothing else, and the directory it starts from is assumed to hold nothing else (see above). Symlinks, hard links, devices and fifos in layers are therefore dropped, as the code does. The code does not resolve whiteouts (`.wh.` files and opaque directories), and neither does the model. `Overlay.WhiteoutIsOrdinaryFile` and `Agreement.SymlinkOnTopShadowsLookup` state these consequences.
- `helpers.UntarTarReader`, which regctl/squashr.go calls, is not part of this model. It is assumed to run the same loop as `Untar` over an already opened reader.
- Registry access is not modelled. That covers `ref.New`, `rc.ManifestGet`, `rc.BlobGet`, `ToTarReader`, `GetTarReader` and `ReadFile`. Each layer arrives as the first of these calls that failed, or as its archive. A manifest list maps platform option strings to the pull of their manifest. `platform.Parse` and platform matching are not modelled, and the global `imageOpts.platform` mutation is not modelled.
- `Registry.FindMember` models regclient's `ReadFile` as "the first member whose cleaned name matches". It ignores whiteout members: a `.wh.` member is an ordinary name, and it does not hide the path it marks as deleted. This is an assumption about regclient. The source's "not found or deleted" remark (regctl/image.go line 208) suggests `ReadFile` may report deletions. `Agreement.TopmostLookupAgreesWithSquash` depends on this assumption. In the lookup, a layer whose reader cannot be opened is an `Abort` tagged with the lookup stage.
- `Registry.GetFile`: its contract states only error propagation. The rest of its behaviour is stated by `Registry.Search`, `Registry.GetFileNotFoundIff` and `Agreement.TopmostLookupAgreesWithSquash`. Not modelled: the `formatFile` template output, writing to stdout or creating the output file named by the third argument, and errors from that copy.
- `Registry.ExtractLayers`: a successful run requested every layer, but the converse does not hold, because a failure in the last layer also requests every layer. So the contract states `err.None? ==> |fetched| == |layers| - i` only.
- `SavedImage.Squash`: its contract states only what happens to the destination. `SavedImage.SquashSucceedsIff` gives the full equivalence.
- main.go, docker/docker.go and the command wiring in regctl/regctl.go are not part of this model.

=== FILE: agreement.dfy ===
/**
 * How the two readings of one layer list relate: the top-down lookup of
 * regctl/image.go and the bottom-up fold of the squash commands.
 */
module Agreement {
  import opened Wrappers
  import opened Paths
  import opened Errors
  import opened FileSystems
  import opened Archives
  import opened Overlay
  import opened Retar
  import opened SavedImage
  import opened Registry

  /** At most one member of the layer lands on p. */
  predicate NamedOnce(members: seq<Header>, p: Path) {
    forall j, k | 0 <= j < k < |members| :: !(Target(members[j]) == p && Target(members[k]) == p)
  }

  lemma LacksMeansUntouched(l: RemoteLayer, p: Path)
    requires Lacks(l, p)
    ensures Untouched(l.archive, p)
  {
  }

  /**
   * When squashing succeeds and the topmost layer holding the requested
   * file has it once, as a regular file, get-file returns exactly the
   * contents the squashed directory holds at that path.
   */
  lemma TopmostLookupAgreesWithSquash(top: Result<Manifest, Error>, option: string, filename: string, out: FileSystem)
    requires ResolveImage(top, option).Success?
    requires SquashImage(top, option, out).err.None?
    requires var layers := ResolveImage(top, option).value;
      var p := ToPath(RequestedName(filename));
      var hit := Search(layers, |layers|, p);
      && hit.Hit? && hit.member.typeflag == TypeReg
      && NamedOnce(layers[hit.index].archive.members, p)
    ensures GetFile(top, option, filename).Success?
    ensures var p := ToPath(RequestedName(filename));
      var fs := SquashImage(top, option, out).fs;
      p in fs && fs[p].File? && fs[p].body == GetFile(top, option, filename).value
  {
    var layers := ResolveImage(top, option).value;
    var p := ToPath(RequestedName(filename));
    var hit := Search(layers, |layers|, p);
    var i := hit.index;
    ExtractLayersIsFold(out, layers, 0);
    assert layers[0..] == layers;
    var archives := FetchedArchives(layers);
    FoldReadsToEnd(out, archives, i);
    var members := archives[i].members;
    assert hit.cut.None?;
    var k :| 0 <= k < |members| && members[k] == hit.member;
    assert NotWrittenBy(members[k + 1..], p) by {
      forall m | k < m < |members|
        ensures Target(members[m]) != p
      {
        assert Target(members[k]) == p;
      }
      var rest := members[k + 1..];
      assert forall m | 0 <= m < |rest| :: rest[m] == members[k + 1 + m];
    }
    forall j | i < j < |archives|
      ensures Untouched(archives[j], p)
    {
      LacksMeansUntouched(layers[j], p);
    }
    LaterLayerWins(out, archives, i, k);
  }

  /** Two layers: a regular file x below, a symlink x on top. */
  const Below := Header("x", TypeReg, 420, [1])
  const Link := Header("x", '2', 511, [])
  const LinkOnTop := [Fetched(Archive([Below], EndOfArchive)), Fetched(Archive([Link], EndOfArchive))]

  lemma LinkOnTopLookup()
    ensures GetFile(Success(Image(Success(LinkOnTop))), "", "/x") == Success([])
  {
    assert Split("x") == ["x"];
    assert ToPath("x") == ["x"];
    assert RequestedName("/x") == "x";
    assert FindMember([Link], EndOfArchive, ["x"]) == Present(Link, None);
    assert Search(LinkOnTop, 2, ["x"]) == Hit(1, Link, None);
  }

  lemma LinkOnTopFold(root: FileSystem)
    requires root == map[[] := Dir]
    ensures ExtractLayers(root, LinkOnTop, 0) == Report(root[["x"] := File(420, [1])], None, [0, 1])
  {
    var fs1 := root[["x"] := File(420, [1])];
    assert Split("x") == ["x"];
    assert Target(Below) == ["x"];
    assert Parent(["x"]) == [];
    assert EnsureParent(root, ["x"]) == Success(root);
    assert WriteFile(root, ["x"], 420, [1]) == Success(fs1);
    assert Step(root, Below) == Success(fs1);
    assert ApplyEntries(root, [Below]) == Extraction(fs1, None) by {
      assert [Below][1..] == [];
    }
    assert ApplyEntries(fs1, [Link]) == Extraction(fs1, None) by {
      assert [Link][1..] == [];
    }
    assert ExtractLayers(fs1, LinkOnTop, 2) == Report(fs1, None, []);
    assert ExtractLayers(fs1, LinkOnTop, 1) == Report(fs1, None, [1]);
  }

  /**
   * The two readings part ways on members the fold ignores: a symlink at x
   * in the top layer is what get-file finds, while squashing keeps the
   * regular file of the layer below.
   */
  lemma SymlinkOnTopShadowsLookup(root: FileSystem)
    requires root == map[[] := Dir]
    ensures var top := Success(Image(Success(LinkOnTop)));
      && GetFile(top, "", "/x") == Success(Link.body)
      && SquashImage(top, "", root).err.None?
      && ["x"] in SquashImage(top, "", root).fs
      && SquashImage(top, "", root).fs[["x"]] == File(Below.mode, Below.body)
  {
    LinkOnTopLookup();
    LinkOnTopFold(root);
  }

  /** One layer naming x twice: first with contents [1], then with [2]. */
  const First := Header("x", TypeReg, 420, [1])
  const Second := Header("x", TypeReg, 420, [2])
  const NamedTwice := [Fetched(Archive([First, Second], EndOfArchive))]

  lemma NamedTwiceLookup()
    ensures GetFile(Success(Image(Success(NamedTwice))), "", "/x") == Success([1])
  {
    assert Split("x") == ["x"];
    assert ToPath("x") == ["x"];
    assert RequestedName("/x") == "x";
    assert FindMember([First, Second], EndOfArchive, ["x"]) == Present(First, None);
    assert Search(NamedTwice, 1, ["x"]) == Hit(0, First, None);
  }

  lemma NamedTwiceFold(root: FileSystem)
    requires root == map[[] := Dir]
    ensures ExtractLayers(root, NamedTwice, 0) == Report(root[["x"] := File(420, [2])], None, [0])
  {
    var fs1 := root[["x"] := File(420, [1])];
    var fs2 := root[["x"] := File(420, [2])];
    assert Split("x") == ["x"];
    assert Target(First) == ["x"] && Target(Second) == ["x"];
    assert Parent(["x"]) == [];
    assert EnsureParent(root, ["x"]) == Success(root);
    assert WriteFile(root, ["x"], 420, [1]) == Success(fs1);
    assert Step(root, First) == Success(fs1);
    assert EnsureParent(fs1, ["x"]) == Success(fs1);
    assert fs1[["x"] := File(fs1[["x"]].mode, [2])] == fs2;
    assert WriteFile(fs1, ["x"], 420, [2]) == Success(fs2);
    assert Step(fs1, Second) == Success(fs2);
    assert ApplyEntries(fs1, [Second]) == Extraction(fs2, None) by {
      assert [Second][1..] == [];
    }
    assert ApplyEntries(root, [First, Second]) == Extraction(fs2, None) by {
      assert [First, Second][1..] == [Second];
    }
    assert ExtractLayers(fs2, NamedTwice, 1) == Report(fs2, None, []);
  }

  /**
   * Within one layer the two readings part ways too: get-file returns the
   * first member named x, while extraction leaves the last one's contents.
   */
  lemma FirstMemberShadowsLastInLookup(root: FileSystem)
    requires root == map[[] := Dir]
    ensures var top := Success(Image(Success(NamedTwice)));
      && GetFile(top, "", "/x") == Success(First.body)
      && SquashImage(top, "", root).err.None?
      && ["x"] in SquashImage(top, "", root).fs
      && SquashImage(top, "", root).fs[["x"]] == File(Second.mode, Second.body)
  {
    NamedTwiceLookup();
    NamedTwiceFold(root);
  }

  /**
   * End to end for a saved image: if the topmost write of p is layer j's
   * regular-file member k and the run succeeds, the squashed archive holds
   * p under its relative name with member k's contents.
   */
  lemma SquashKeepsTopmostContents(
    workDir: string,
    image: Result<Archive, Error>,
    decodeManifest: Bytes -> Result<seq<ManifestEntry>, Error>,
    decodeTar: Bytes -> Archive,
    dest: Option<set<OutputEntry>>,
    j: nat, k: nat)
    requires Squash(workDir, image, decodeManifest, decodeTar, dest).err.None?
    requires var u := Unpack(image, decodeManifest).value;
      var layers := OpenLayers(u.orig, u.layers, decodeTar);
      && j < |layers| && layers[j].Success?
      && k < |layers[j].value.members|
      && layers[j].value.members[k].typeflag == TypeReg
      && NotWrittenBy(layers[j].value.members[k + 1..], Target(layers[j].value.members[k]))
      && (forall i | j < i < |layers| :: layers[i].Success? ==> Untouched(layers[i].value, Target(layers[j].value.members[k])))
      && |Target(layers[j].value.members[k])| > 0
      && !Occurs(DstDir(workDir), "/" + Join(Target(layers[j].value.members[k])))
    ensures var u := Unpack(image, decodeManifest).value;
      var h := OpenLayers(u.orig, u.layers, decodeTar)[j].value.members[k];
      exists e | e in Squash(workDir, image, decodeManifest, decodeTar, dest).dest.value ::
        e.name == Join(Target(h)) && e.body == h.body
  {
    var u := Unpack(image, decodeManifest).value;
    var layers := OpenLayers(u.orig, u.layers, decodeTar);
    var h := layers[j].value.members[k];
    var p := Target(h);
    SquashSucceedsIff(workDir, image, decodeManifest, decodeTar, dest);
    FoldSuccessOpenedAll(map[], layers);
    var archives := Opened(layers);
    LaterLayerWins(map[], archives, j, k);
    var fs := Squashed(u, decodeTar).fs;
    EntryNameIsRelative(DstDir(workDir), p);
    var e := Emit(DstDir(workDir), p, fs[p]);
    assert e in Tar(DstDir(workDir), fs).value;
  }

  lemma {:induction false} FoldSuccessOpenedAll(fs: FileSystem, layers: seq<Result<Archive, Error>>)
    requires FoldLayers(fs, layers).err.None?
    ensures forall i | 0 <= i < |layers| :: layers[i].Success?
    decreases |layers|
  {
    if |layers| > 0 {
      FoldSuccessOpenedAll(Untar(fs, layers[0].value).fs, layers[1..]);
      assert forall i | 1 <= i < |layers| :: layers[i] == layers[1..][i - 1];
    }
  }
}

=== FILE: archive.dfy ===
/** A layer archive as the tar reader delivers it. */
module Archives {
  import opened Paths
  import opened FileSystems

  /** POSIX ustar typeflags for a regular file and a directory; no other typeflag is acted on. */
  const TypeReg: char := '0'
  const TypeDir: char := '5'

  /** A tar header together with the member's contents. */
  datatype Header = Header(name: string, typeflag: char, mode: int, body: Bytes)

  /** How reading ends after the last whole member. */
  datatype Tail =
    | EndOfArchive                              // tr.Next() reports io.EOF
    | Corrupt(reason: string)                   // tr.Next() reports any other error
    | Truncated(member: Header, reason: string) // a member whose contents end early; member.body is what could be read

  datatype Archive = Archive(members: seq<Header>, tail: Tail)

  /** Where a member lands below the extraction root. */
  function Target(h: Header): Path {
    ToPath(h.name)
  }
}

=== FILE: errors.dfy ===
/** The errors the modelled code can return, including the ones it wraps with a layer index. */
module Errors {
  import opened Paths

  /** Which call of the per-layer loop failed, as the wrapping message says. */
  datatype Stage =
    | Pull        // "failed pulling layer %d"
    | Convert     // "could not convert layer %d to tar reader"
    | OpenReader  // "could not get tar reader for layer %d"
    | Extract     // "failed squashing layer %d"
    | Lookup      // "failed pulling from layer %d"

  datatype Error =
    | NoSuchFile(path: Path)                      // ENOENT
    | NotADirectory(path: Path)                   // ENOTDIR
    | IsADirectory(path: Path)                    // EISDIR
    | ReadFailed(reason: string)                  // the tar reader failed mid-archive
    | Malformed(reason: string)                   // manifest.json did not decode
    | IndexOutOfRange                             // manifest[0] of an empty array, a Go panic
    | Registry(reason: string)                    // an opaque registry-client failure
    | PlatformNotFound(platform: string)          // manifest.GetPlatformDesc found no match
    | PlatformPull(cause: Error)                  // "failed to pull platform specific digest"
    | NotAnImage                                  // "reference is not a known image media type"
    | LayerFailed(stage: Stage, index: nat, cause: Error)
    | NotFound                                    // types.ErrNotFound
}

=== FILE: filesystem.dfy ===
/** A directory tree as the extraction code sees it. */
module FileSystems {
  import opened Wrappers
  import opened Paths
  import opened Errors

  newtype byte = x: int | 0 <= x < 256

  type Bytes = seq<byte>

  /** What a path names: a directory, or a regular file with its permission bits and contents. */
  datatype Node = Dir | File(mode: int, body: Bytes)

  type FileSystem = map<Path, Node>

  /** Every present path is clean and hangs from a present directory, as in a real directory tree. */
  predicate Tree(fs: FileSystem) {
    && (forall p | p in fs :: ValidPath(p))
    && (forall p | p in fs && |p| > 0 :: Parent(p) in fs && fs[Parent(p)] == Dir)
  }

  /** The outcome of extracting into a directory: what it holds afterwards, and the error that stopped extraction, if any. */
  datatype Extraction = Extraction(fs: FileSystem, err: Option<Error>)

  /** Some proper prefix of p is a regular file, so p cannot be reached. */
  predicate FileAbove(fs: FileSystem, p: Path) {
    exists k | 0 <= k < |p| :: p[..k] in fs && fs[p[..k]].File?
  }

  /**
   * os.ReadFile: the contents of a regular file; EISDIR for a directory;
   * for a missing path, ENOTDIR when the walk down to it meets a regular
   * file and ENOENT otherwise.
   */
  function ReadFile(fs: FileSystem, p: Path): (r: Result<Bytes, Error>)
    ensures r.Success? <==> p in fs && fs[p].File?
    ensures r.Success? ==> r.value == fs[p].body
    ensures p in fs && fs[p] == Dir ==> r == Failure(IsADirectory(p))
    ensures p !in fs && FileAbove(fs, p) ==> r == Failure(NotADirectory(p))
    ensures p !in fs && !FileAbove(fs, p) ==> r == Failure(NoSuchFile(p))
  {
    if p in fs then
      if fs[p] == Dir then Failure(IsADirectory(p)) else Success(fs[p].body)
    else if FileAbove(fs, p) then Failure(NotADirectory(p))
    else Failure(NoSuchFile(p))
  }
}

=== FILE: overlay.dfy ===
/**
 * helpers/tar.go Untar: replaying one layer archive onto a directory.
 * Only directory and regular-file members act; nothing is ever removed.
 */
module Overlay {
  import opened Wrappers
  import opened Paths
  import opened Errors
  import opened FileSystems
  import opened Archives

  /**
   * os.MkdirAll: succeed at once on an existing directory, fail on an
   * existing non-directory, otherwise make the parent first and then p.
   */
  function MkdirAll(fs: FileSystem, p: Path): (r: Result<FileSystem, Error>)
    ensures r.Success? ==> forall q | q in fs :: q in r.value && r.value[q] == fs[q]
    ensures r.Success? ==> forall q | q in r.value && q !in fs :: r.value[q] == Dir && q <= p
    ensures r.Success? ==> p in r.value && r.value[p] == Dir
    ensures r.Failure? ==> exists k | 0 <= k <= |p| :: p[..k] in fs && fs[p[..k]].File?
    ensures Tree(fs) && ValidPath(p) && r.Success? ==> Tree(r.value)
    decreases |p|
  {
    if p in fs then
      if fs[p] == Dir then Success(fs)
      else assert p[..|p|] == p; Failure(NotADirectory(p))
    else if |p| == 0 then
      Success(fs[p := Dir])
    else
      var up := MkdirAll(fs, Parent(p));
      if up.Failure? then
        assert forall k | 0 <= k <= |p| - 1 :: Parent(p)[..k] == p[..k];
        Failure(up.error)
      else
        Success(up.value[p := Dir])
  }

  /** The `os.Stat(path.Dir(target))` guard: make the parent unless something is already there. */
  function EnsureParent(fs: FileSystem, target: Path): (r: Result<FileSystem, Error>)
    ensures r.Success? ==> forall q | q in fs :: q in r.value && r.value[q] == fs[q]
    ensures r.Success? ==> forall q | q in r.value && q !in fs :: r.value[q] == Dir && q <= target && q != target
    ensures r.Success? && |target| > 0 ==> Parent(target) in r.value
    ensures Tree(fs) && ValidPath(target) && r.Success? ==> Tree(r.value)
  {
    if |target| == 0 || Parent(target) in fs then Success(fs) else MkdirAll(fs, Parent(target))
  }

  /**
   * os.OpenFile(target, O_WRONLY|O_CREATE|O_TRUNC, mode) and copying body
   * in: the permission bits apply only when the file is created.
   */
  function WriteFile(fs: FileSystem, target: Path, mode: int, body: Bytes): (r: Result<FileSystem, Error>)
    ensures r.Success? ==> r.value.Keys == fs.Keys + {target}
    ensures r.Success? ==> forall q | q in fs && q != target :: r.value[q] == fs[q]
    ensures r.Success? ==> target !in fs || fs[target].File?
    ensures r.Success? ==> r.value[target] == File(if target in fs then fs[target].mode else mode, body)
    ensures Tree(fs) && ValidPath(target) && r.Success? ==> Tree(r.value)
  {
    if |target| > 0 && Parent(target) !in fs then Failure(NoSuchFile(target))
    else if |target| > 0 && fs[Parent(target)] != Dir then Failure(NotADirectory(target))
    else if target in fs && fs[target] == Dir then Failure(IsADirectory(target))
    else if target in fs then Success(fs[target := File(fs[target].mode, body)])
    else Success(fs[target := File(mode, body)])
  }

  /** Reading back a file just written gives the written contents. */
  lemma ReadAfterWrite(fs: FileSystem, target: Path, mode: int, body: Bytes)
    requires WriteFile(fs, target, mode, body).Success?
    ensures ReadFile(WriteFile(fs, target, mode, body).value, target) == Success(body)
  {
  }

  /** Reading any other present path after a write gives what it gave before. */
  lemma ReadElsewhereAfterWrite(fs: FileSystem, target: Path, mode: int, body: Bytes, q: Path)
    requires WriteFile(fs, target, mode, body).Success?
    requires q in fs && q != target
    ensures ReadFile(WriteFile(fs, target, mode, body).value, q) == ReadFile(fs, q)
  {
  }

  /** One pass of the loop body of Untar: the effect of one member. */
  function Step(fs: FileSystem, h: Header): (r: Result<FileSystem, Error>)
    ensures h.typeflag != TypeDir && h.typeflag != TypeReg ==> r == Success(fs)
    ensures h.typeflag == TypeDir && Target(h) in fs ==> r == Success(fs)
    ensures r.Success? ==> forall q | q in fs ::
      q in r.value && (r.value[q] == fs[q] || (h.typeflag == TypeReg && q == Target(h) && fs[q].File?))
    ensures r.Success? ==> forall q | q in r.value && q !in fs ::
      q <= Target(h) && (r.value[q] == Dir || (h.typeflag == TypeReg && q == Target(h)))
    ensures r.Success? && h.typeflag == TypeDir ==> Target(h) in r.value
    ensures r.Success? && h.typeflag == TypeReg ==>
      Target(h) in r.value
      && (Target(h) !in fs || fs[Target(h)].File?)
      && r.value[Target(h)] == File(if Target(h) in fs then fs[Target(h)].mode else h.mode, h.body)
    ensures Tree(fs) && r.Success? ==> Tree(r.value)
  {
    var target := Target(h);
    if h.typeflag == TypeDir then
      if target in fs then Success(fs) else MkdirAll(fs, target)
    else if h.typeflag == TypeReg then
      var ready :- EnsureParent(fs, target);
      WriteFile(ready, target, h.mode, h.body)
    else
      Success(fs)
  }

  /** Applies members in archive order, stopping at the first failing one; the effects of the members before it stay. */
  function ApplyEntries(fs: FileSystem, members: seq<Header>): (r: Extraction)
    ensures forall q | q in fs :: q in r.fs
    ensures forall q | q in fs && fs[q] == Dir :: r.fs[q] == Dir
    ensures Tree(fs) ==> Tree(r.fs)
    decreases |members|
  {
    if |members| == 0 then Extraction(fs, None)
    else
      match Step(fs, members[0])
      case Failure(e) => Extraction(fs, Some(e))
      case Success(next) => ApplyEntries(next, members[1..])
  }

  /**
   * Untar on an opened archive: io.EOF ends it successfully, any other
   * reader error ends it with that error, and a member whose contents end
   * early is written as far as it could be read before the error is returned:
   * a regular file is created or truncated first, so its target is left
   * holding exactly the part that was read.
   */
  function Untar(fs: FileSystem, a: Archive): (r: Extraction)
    ensures forall q | q in fs :: q in r.fs
    ensures forall q | q in fs && fs[q] == Dir :: r.fs[q] == Dir
    ensures Tree(fs) ==> Tree(r.fs)
    ensures r.err.None? <==> a.tail == EndOfArchive && ApplyEntries(fs, a.members).err.None?
    ensures a.tail == EndOfArchive || ApplyEntries(fs, a.members).err.Some? ==> r == ApplyEntries(fs, a.members)
    ensures a.tail.Corrupt? && ApplyEntries(fs, a.members).err.None? ==>
      r == Extraction(ApplyEntries(fs, a.members).fs, Some(ReadFailed(a.tail.reason)))
    ensures a.tail.Truncated? && ApplyEntries(fs, a.members).err.None? ==>
      && r.err.Some?
      && var done := ApplyEntries(fs, a.members).fs;
         forall q | q in done && q != Target(a.tail.member) :: q in r.fs && r.fs[q] == done[q]
    ensures a.tail.Truncated? && ApplyEntries(fs, a.members).err.None? && a.tail.member.typeflag == TypeReg ==>
      var h := a.tail.member;
      if Step(ApplyEntries(fs, a.members).fs, h).Success? then
        && r.err == Some(ReadFailed(a.tail.reason))
        && Target(h) in r.fs && r.fs[Target(h)].File? && r.fs[Target(h)].body == h.body
      else
        r.fs == ApplyEntries(fs, a.members).fs
  {
    var done := ApplyEntries(fs, a.members);
    if done.err.Some? then done
    else
      match a.tail
      case EndOfArchive => done
      case Corrupt(reason) => Extraction(done.fs, Some(ReadFailed(reason)))
      case Truncated(h, reason) =>
        match Step(done.fs, h)
        case Failure(e) => Extraction(done.fs, Some(e))
        case Success(next) => Extraction(next, Some(ReadFailed(reason)))
  }

  /** The `for { tr.Next() ... }` loop of Untar, written as the loop it is. */
  method ExtractArchive(fs: FileSystem, a: Archive) returns (out: FileSystem, err: Option<Error>)
    ensures Extraction(out, err) == Untar(fs, a)
  {
    out := fs;
    var i := 0;
    while i < |a.members|
      invariant 0 <= i <= |a.members|
      invariant ApplyEntries(out, a.members[i..]) == ApplyEntries(fs, a.members)
    {
      assert a.members[i..][1..] == a.members[i + 1..];
      var step := Step(out, a.members[i]);
      if step.Failure? {
        return out, Some(step.error);
      }
      out := step.value;
      i := i + 1;
    }
    assert a.members[i..] == [];
    assert ApplyEntries(fs, a.members) == Extraction(out, None);
    match a.tail {
      case EndOfArchive =>
        err := None;
      case Corrupt(reason) =>
        err := Some(ReadFailed(reason));
      case Truncated(h, reason) =>
        var step := Step(out, h);
        if step.Failure? {
          err := Some(step.error);
        } else {
          out := step.value;
          err := Some(ReadFailed(reason));
        }
    }
  }

  /** Folds the archives onto one directory, left to right, stopping at the first failing one. */
  function FoldArchives(fs: FileSystem, layers: seq<Archive>): (r: Extraction)
    ensures forall q | q in fs :: q in r.fs
    ensures Tree(fs) ==> Tree(r.fs)
    decreases |layers|
  {
    if |layers| == 0 then Extraction(fs, None)
    else
      var x := Untar(fs, layers[0]);
      if x.err.Some? then x else FoldArchives(x.fs, layers[1..])
  }

  // ----- failure of a single member -----

  lemma {:induction false} TreePrefixesAreDirs(fs: FileSystem, p: Path)
    requires Tree(fs) && p in fs
    ensures forall k | 0 <= k < |p| :: p[..k] in fs && fs[p[..k]] == Dir
    decreases |p|
  {
    if |p| > 0 {
      TreePrefixesAreDirs(fs, Parent(p));
      assert forall k | 0 <= k < |p| - 1 :: Parent(p)[..k] == p[..k];
      assert p[..|p| - 1] == Parent(p);
    }
  }

  lemma {:induction false} NothingBelowFile(fs: FileSystem, p: Path, k: nat, j: nat)
    requires Tree(fs)
    requires k < j <= |p|
    requires p[..k] in fs && fs[p[..k]].File?
    ensures p[..j] !in fs
    decreases j - k
  {
    if p[..j] in fs {
      assert Parent(p[..j]) == p[..j - 1];
      if j - 1 > k {
        NothingBelowFile(fs, p, k, j - 1);
      }
    }
  }

  /** The contrapositive of MkdirAll's failure clause: with no regular file on the way, it succeeds. MkdirAllFails is its converse. */
  lemma MkdirAllSucceeds(fs: FileSystem, p: Path)
    requires forall k | 0 <= k <= |p| :: !(p[..k] in fs && fs[p[..k]].File?)
    ensures MkdirAll(fs, p).Success?
  {
  }

  lemma {:induction false} MkdirAllFails(fs: FileSystem, p: Path, k: nat)
    requires Tree(fs)
    requires k <= |p| && p[..k] in fs && fs[p[..k]].File?
    ensures MkdirAll(fs, p).Failure?
    decreases |p|
  {
    if k < |p| {
      NothingBelowFile(fs, p, k, |p|);
      assert p[..|p|] == p;
      assert Parent(p)[..k] == p[..k];
      MkdirAllFails(fs, Parent(p), k);
    } else {
      assert p[..|p|] == p;
    }
  }

  /** A directory member fails only when its target is missing and lies below a regular file. */
  lemma DirStepFailsIff(fs: FileSystem, h: Header)
    requires Tree(fs) && h.typeflag == TypeDir
    ensures Step(fs, h).Failure? <==> Target(h) !in fs && FileAbove(fs, Target(h))
  {
    var t := Target(h);
    assert t[..|t|] == t;
    if t !in fs {
      if FileAbove(fs, t) {
        var k :| 0 <= k < |t| && t[..k] in fs && fs[t[..k]].File?;
        MkdirAllFails(fs, t, k);
      } else {
        MkdirAllSucceeds(fs, t);
      }
    }
  }

  lemma NoFileAboveDirectory(fs: FileSystem, t: Path)
    requires Tree(fs) && |t| > 0 && Parent(t) in fs && fs[Parent(t)] == Dir
    ensures !FileAbove(fs, t)
  {
    var up := Parent(t);
    TreePrefixesAreDirs(fs, up);
    assert forall k | 0 <= k < |t| - 1 :: up[..k] == t[..k];
    assert t[..|t| - 1] == up;
  }

  lemma RegStepPresentParent(fs: FileSystem, h: Header)
    requires Tree(fs) && h.typeflag == TypeReg && |Target(h)| > 0 && Parent(Target(h)) in fs
    ensures Step(fs, h).Failure? <==> FileAbove(fs, Target(h)) || (Target(h) in fs && fs[Target(h)] == Dir)
  {
    var t := Target(h);
    assert Step(fs, h) == WriteFile(fs, t, h.mode, h.body);
    if fs[Parent(t)] == Dir {
      NoFileAboveDirectory(fs, t);
      assert WriteFile(fs, t, h.mode, h.body).Failure? <==> t in fs && fs[t] == Dir;
    } else {
      assert t[..|t| - 1] == Parent(t);
      assert WriteFile(fs, t, h.mode, h.body).Failure?;
    }
  }

  lemma RegStepMissingParent(fs: FileSystem, h: Header)
    requires Tree(fs) && h.typeflag == TypeReg && |Target(h)| > 0 && Parent(Target(h)) !in fs
    ensures Step(fs, h).Failure? <==> FileAbove(fs, Target(h))
  {
    var t := Target(h);
    var up := Parent(t);
    assert t !in fs;
    assert forall k | 0 <= k <= |t| - 1 :: up[..k] == t[..k];
    if FileAbove(fs, t) {
      var k :| 0 <= k < |t| && t[..k] in fs && fs[t[..k]].File?;
      MkdirAllFails(fs, up, k);
    } else {
      MkdirAllSucceeds(fs, up);
    }
  }

  /** A regular-file member fails only below a regular file or onto a directory. */
  lemma RegStepFailsIff(fs: FileSystem, h: Header)
    requires Tree(fs) && h.typeflag == TypeReg
    ensures Step(fs, h).Failure? <==> FileAbove(fs, Target(h)) || (Target(h) in fs && fs[Target(h)] == Dir)
  {
    var t := Target(h);
    if |t| == 0 {
      assert !FileAbove(fs, t);
    } else if Parent(t) in fs {
      RegStepPresentParent(fs, h);
    } else {
      RegStepMissingParent(fs, h);
    }
  }

  // ----- what survives and what wins -----

  /** No regular-file member among members lands on p. */
  predicate NotWrittenBy(members: seq<Header>, p: Path) {
    forall k | 0 <= k < |members| :: !(members[k].typeflag == TypeReg && Target(members[k]) == p)
  }

  /** Neither a member nor a truncated last member of a writes a regular file at p. */
  predicate Untouched(a: Archive, p: Path) {
    && NotWrittenBy(a.members, p)
    && !(a.tail.Truncated? && a.tail.member.typeflag == TypeReg && Target(a.tail.member) == p)
  }

  /** A present path that no regular-file member targets keeps its node, whether or not extraction fails later. */
  lemma {:induction false} UnwrittenPathKept(fs: FileSystem, members: seq<Header>, p: Path)
    requires p in fs && NotWrittenBy(members, p)
    ensures p in ApplyEntries(fs, members).fs && ApplyEntries(fs, members).fs[p] == fs[p]
    decreases |members|
  {
    if |members| > 0 {
      var step := Step(fs, members[0]);
      if step.Success? {
        assert NotWrittenBy(members[1..], p) by {
          forall k | 0 <= k < |members[1..]|
            ensures !(members[1..][k].typeflag == TypeReg && Target(members[1..][k]) == p)
          {
            assert members[1..][k] == members[k + 1];
          }
        }
        UnwrittenPathKept(step.value, members[1..], p);
      }
    }
  }

  /**
   * Members apply in archive order: after a successful extraction, p holds
   * the contents of the last regular-file member aimed at it.
   */
  lemma {:induction false} LastWriterWins(fs: FileSystem, members: seq<Header>, j: nat)
    requires j < |members| && members[j].typeflag == TypeReg
    requires NotWrittenBy(members[j + 1..], Target(members[j]))
    requires ApplyEntries(fs, members).err.None?
    ensures var after := ApplyEntries(fs, members).fs;
      Target(members[j]) in after && after[Target(members[j])].File?
      && after[Target(members[j])].body == members[j].body
    decreases |members|
  {
    var step := Step(fs, members[0]);
    if step.Success? {
      if j == 0 {
        UnwrittenPathKept(step.value, members[1..], Target(members[j]));
      } else {
        assert members[1..][j - 1 + 1..] == members[j + 1..];
        LastWriterWins(step.value, members[1..], j - 1);
      }
    }
  }

  /** A path no member of the archive writes keeps its node through Untar. */
  lemma UntouchedPathKept(fs: FileSystem, a: Archive, p: Path)
    requires p in fs && Untouched(a, p)
    ensures p in Untar(fs, a).fs && Untar(fs, a).fs[p] == fs[p]
  {
    UnwrittenPathKept(fs, a.members, p);
  }

  /** Across layers the topmost writer wins: a path written by layer j and by no later layer ends with layer j's contents. */
  lemma {:induction false} LaterLayerWins(fs: FileSystem, layers: seq<Archive>, j: nat, k: nat)
    requires j < |layers| && k < |layers[j].members|
    requires layers[j].members[k].typeflag == TypeReg
    requires NotWrittenBy(layers[j].members[k + 1..], Target(layers[j].members[k]))
    requires forall i | j < i < |layers| :: Untouched(layers[i], Target(layers[j].members[k]))
    requires FoldArchives(fs, layers).err.None?
    ensures var after := FoldArchives(fs, layers).fs;
      var p := Target(layers[j].members[k]);
      p in after && after[p].File? && after[p].body == layers[j].members[k].body
    decreases |layers|
  {
    var x := Untar(fs, layers[0]);
    if j == 0 {
      LastWriterWins(fs, layers[0].members, k);
      FoldKeeps(x.fs, layers[1..], Target(layers[j].members[k]));
    } else {
      LaterLayerWins(x.fs, layers[1..], j - 1, k);
    }
  }

  lemma {:induction false} FoldKeeps(fs: FileSystem, layers: seq<Archive>, p: Path)
    requires p in fs
    requires forall i | 0 <= i < |layers| :: Untouched(layers[i], p)
    ensures p in FoldArchives(fs, layers).fs && FoldArchives(fs, layers).fs[p] == fs[p]
    decreases |layers|
  {
    if |layers| > 0 {
      UntouchedPathKept(fs, layers[0], p);
      var x := Untar(fs, layers[0]);
      if x.err.None? {
        FoldKeeps(x.fs, layers[1..], p);
      }
    }
  }

  // ----- members that do nothing -----

  /** A typeflag the loop has a case for. */
  predicate Effective(h: Header) {
    h.typeflag == TypeDir || h.typeflag == TypeReg
  }

  /** No member of a is a directory or a regular file: symlinks, hard links, devices, fifos only. */
  predicate Inert(a: Archive) {
    && (forall k | 0 <= k < |a.members| :: !Effective(a.members[k]))
    && !(a.tail.Truncated? && Effective(a.tail.member))
  }

  lemma {:induction false} InertMembersChangeNothing(fs: FileSystem, members: seq<Header>)
    requires forall k | 0 <= k < |members| :: !Effective(members[k])
    ensures ApplyEntries(fs, members) == Extraction(fs, None)
    decreases |members|
  {
    if |members| > 0 {
      assert !Effective(members[0]);
      assert forall k | 0 <= k < |members[1..]| :: members[1..][k] == members[k + 1];
      InertMembersChangeNothing(fs, members[1..]);
    }
  }

  /** An archive of only symlinks, links, devices and fifos leaves the directory exactly as it was. */
  lemma InertArchiveChangesNothing(fs: FileSystem, a: Archive)
    requires Inert(a)
    ensures Untar(fs, a).fs == fs
  {
    InertMembersChangeNothing(fs, a.members);
  }

  lemma {:induction false} InertLayersChangeNothing(fs: FileSystem, layers: seq<Archive>)
    requires forall i | 0 <= i < |layers| :: Inert(layers[i])
    ensures FoldArchives(fs, layers).fs == fs
    decreases |layers|
  {
    if |layers| > 0 {
      InertArchiveChangesNothing(fs, layers[0]);
      InertLayersChangeNothing(fs, layers[1..]);
    }
  }

  /** A successful fold read every archive to its end-of-archive marker. */
  lemma {:induction false} FoldReadsToEnd(fs: FileSystem, layers: seq<Archive>, i: nat)
    requires i < |layers| && FoldArchives(fs, layers).err.None?
    ensures layers[i].tail == EndOfArchive
    decreases |layers|
  {
    if i > 0 {
      FoldReadsToEnd(Untar(fs, layers[0]).fs, layers[1..], i - 1);
    }
  }

  /**
   * A whiteout member (a regular file whose last component starts with
   * ".wh.") is written like any other file, and the path it names for
   * deletion is still there afterwards.
   */
  lemma WhiteoutIsOrdinaryFile(fs: FileSystem, a: Archive, j: nat)
    requires Untar(fs, a).err.None?
    requires j < |a.members| && a.members[j].typeflag == TypeReg
    requires var t := Target(a.members[j]); |t| > 0 && ".wh." <= t[|t| - 1]
    requires NotWrittenBy(a.members[j + 1..], Target(a.members[j]))
    requires var t := Target(a.members[j]); Parent(t) + [t[|t| - 1][4..]] in fs
    ensures var t := Target(a.members[j]); var after := Untar(fs, a).fs;
      && Parent(t) + [t[|t| - 1][4..]] in after
      && t in after && after[t].File? && after[t].body == a.members[j].body
  {
    LastWriterWins(fs, a.members, j);
  }
}

=== FILE: paths.dfy ===
/**
 * Slash-separated names, the component paths they clean to, and the two
 * string functions of the standard library the archive writer relies on
 * (strings.Replace with an empty replacement, strings.TrimPrefix).
 */
module Paths {

  /** A location below an extraction root, one string per component; [] is the root itself. */
  type Path = seq<string>

  function Parent(p: Path): Path
    requires |p| > 0
  {
    p[..|p| - 1]
  }

  /** A component as path cleaning leaves it: non-empty, not ".", free of separators. */
  predicate ValidComponent(c: string) {
    c != "" && c != "." && '/' !in c
  }

  predicate ValidPath(p: Path) {
    forall i | 0 <= i < |p| :: ValidComponent(p[i])
  }

  /** Position of the first separator of s. */
  function FirstSlash(s: string): (i: nat)
    requires '/' in s
    ensures i < |s| && s[i] == '/'
  {
    if s[0] == '/' then 0 else 1 + FirstSlash(s[1..])
  }

  /** The pieces of s between separators, as strings.Split(s, "/") returns them. */
  function Split(s: string): (parts: seq<string>)
    ensures |parts| > 0
    ensures forall i | 0 <= i < |parts| :: '/' !in parts[i]
    decreases |s|
  {
    if '/' in s then
      var i := FirstSlash(s);
      FirstSlashIsFirst(s);
      [s[..i]] + Split(s[i + 1..])
    else
      [s]
  }

  lemma {:induction false} FirstSlashIsFirst(s: string)
    requires '/' in s
    ensures '/' !in s[..FirstSlash(s)]
    decreases |s|
  {
    if s[0] != '/' {
      FirstSlashIsFirst(s[1..]);
      assert s[..FirstSlash(s)] == [s[0]] + s[1..][..FirstSlash(s[1..])];
    }
  }

  /** Drops the empty and "." pieces, which joining onto a root discards. */
  function Clean(parts: seq<string>): (p: Path)
    requires forall i | 0 <= i < |parts| :: '/' !in parts[i]
    ensures ValidPath(p)
    ensures |p| <= |parts|
  {
    if |parts| == 0 then []
    else if parts[0] == "" || parts[0] == "." then Clean(parts[1..])
    else [parts[0]] + Clean(parts[1..])
  }

  /**
   * The path that filepath.Join(root, name) denotes below root. A ".."
   * component is kept as an ordinary name rather than resolved.
   */
  function ToPath(name: string): (p: Path)
    ensures ValidPath(p)
  {
    Clean(Split(name))
  }

  /** The components of p joined by single separators. */
  function Join(p: Path): string {
    if |p| == 0 then ""
    else if |p| == 1 then p[0]
    else p[0] + "/" + Join(p[1..])
  }

  lemma {:induction false} FirstSlashAfter(c: string, rest: string)
    requires '/' !in c
    ensures FirstSlash(c + "/" + rest) == |c|
    decreases |c|
  {
    var s := c + "/" + rest;
    if |c| > 0 {
      assert s[0] == c[0];
      assert s[1..] == c[1..] + "/" + rest;
      FirstSlashAfter(c[1..], rest);
    }
  }

  lemma SplitAfterComponent(c: string, rest: string)
    requires '/' !in c
    ensures Split(c + "/" + rest) == [c] + Split(rest)
  {
    var s := c + "/" + rest;
    FirstSlashAfter(c, rest);
    assert s[..|c|] == c;
    assert s[|c| + 1..] == rest;
  }

  lemma {:induction false} CleanAppend(a: seq<string>, b: seq<string>)
    requires forall i | 0 <= i < |a| :: '/' !in a[i]
    requires forall i | 0 <= i < |b| :: '/' !in b[i]
    ensures Clean(a + b) == Clean(a) + Clean(b)
  {
    if |a| == 0 {
      assert a + b == b;
    } else {
      assert (a + b)[1..] == a[1..] + b;
      CleanAppend(a[1..], b);
    }
  }

  /** Cleaning a joined path gives the path back: the names written to an archive denote the paths they came from. */
  lemma {:induction false} ToPathOfJoin(p: Path)
    requires ValidPath(p)
    ensures ToPath(Join(p)) == p
  {
    if |p| == 0 {
      assert Split("") == [""];
    } else if |p| == 1 {
      assert Split(p[0]) == [p[0]];
    } else {
      SplitAfterComponent(p[0], Join(p[1..]));
      CleanAppend([p[0]], Split(Join(p[1..])));
      assert Clean([p[0]]) == [p[0]];
      ToPathOfJoin(p[1..]);
    }
  }

  /** strings.TrimPrefix: removes prefix once when s starts with it. */
  function TrimPrefix(s: string, prefix: string): string {
    if prefix <= s then s[|prefix|..] else s
  }

  /** strings.Replace(s, pat, "", -1): deletes the non-overlapping occurrences of pat, leftmost first. */
  function RemoveAll(s: string, pat: string): (r: string)
    ensures |r| <= |s|
    decreases |s|
  {
    if |pat| == 0 || |s| < |pat| then s
    else if s[..|pat|] == pat then RemoveAll(s[|pat|..], pat)
    else [s[0]] + RemoveAll(s[1..], pat)
  }

  /** s continues with pat at position i. */
  predicate MatchAt(pat: string, s: string, i: int) {
    0 <= i <= |s| - |pat| && s[i..i + |pat|] == pat
  }

  /** pat appears somewhere inside s. */
  predicate Occurs(pat: string, s: string) {
    exists i | 0 <= i <= |s| :: MatchAt(pat, s, i)
  }

  lemma {:induction false} RemoveAllWithoutOccurrence(s: string, pat: string)
    requires !Occurs(pat, s)
    ensures RemoveAll(s, pat) == s
    decreases |s|
  {
    if |pat| > 0 && |s| >= |pat| {
      assert !MatchAt(pat, s, 0);
      forall i | MatchAt(pat, s[1..], i)
        ensures MatchAt(pat, s, i + 1)
      {
        assert s[1..][i..i + |pat|] == s[i + 1..i + 1 + |pat|];
      }
      RemoveAllWithoutOccurrence(s[1..], pat);
      assert s == [s[0]] + s[1..];
    }
  }
}

=== FILE: registry.dfy ===
/**
 * regctl/squashr.go Squash and regctl/image.go runImageGetFile: the same
 * layer list, pulled from a registry, either extracted bottom-up into one
 * directory or searched top-down for one file. Registry calls are opaque:
 * each layer arrives as the first call that failed or as its archive.
 */
module Registry {
  import opened Wrappers
  import opened Paths
  import opened Errors
  import opened FileSystems
  import opened Archives
  import opened Overlay

  /** A layer as the registry client hands it over. */
  datatype RemoteLayer =
    | FetchFailed(error: Error)     // rc.BlobGet failed
    | ConvertFailed(error: Error)   // blob.ToTarReader failed
    | ReaderFailed(error: Error)    // btr.GetTarReader failed
    | Fetched(archive: Archive)

  /** A manifest as rc.ManifestGet returns it. */
  datatype Manifest =
    | Image(layers: Result<seq<RemoteLayer>, Error>)            // a manifest.Imager; its GetLayers may fail
    | List(platforms: map<string, Result<Manifest, Error>>)     // a manifest list: per platform, the pull of its manifest
    | Other                                                      // any other media type

  /** The platform option as used for a manifest list: empty means "local". */
  function PlatformName(option: string): (name: string)
    ensures name != ""
    ensures option != "" ==> name == option
  {
    if option == "" then "local" else option
  }

  /** manifest.GetPlatformDesc and the second rc.ManifestGet, for a manifest list. */
  function SelectPlatform(platforms: map<string, Result<Manifest, Error>>, option: string): (r: Result<Manifest, Error>)
    ensures r.Failure? && r.error.PlatformNotFound? ==> PlatformName(option) !in platforms
    ensures PlatformName(option) !in platforms ==> r == Failure(PlatformNotFound(PlatformName(option)))
    ensures r.Success? ==> PlatformName(option) in platforms && platforms[PlatformName(option)] == r
    ensures PlatformName(option) in platforms && platforms[PlatformName(option)].Success? ==>
      r == platforms[PlatformName(option)]
    ensures PlatformName(option) in platforms && platforms[PlatformName(option)].Failure? ==>
      r == Failure(PlatformPull(platforms[PlatformName(option)].error))
  {
    var platform := PlatformName(option);
    if platform !in platforms then Failure(PlatformNotFound(platform))
    else
      match platforms[platform]
      case Failure(e) => Failure(PlatformPull(e))
      case Success(m) => Success(m)
  }

  /**
   * The manifest handling shared by both commands: fetch, resolve a list to
   * one platform, insist on an image manifest, list its layers.
   */
  function ResolveImage(top: Result<Manifest, Error>, option: string): (r: Result<seq<RemoteLayer>, Error>)
    ensures top.Failure? ==> r == Failure(top.error)
    ensures top.Success? && top.value.Other? ==> r == Failure(NotAnImage)
    ensures top.Success? && top.value.Image? ==> r == top.value.layers
    ensures top.Success? && top.value.List? && PlatformName(option) !in top.value.platforms ==>
      r == Failure(PlatformNotFound(PlatformName(option)))
    ensures top.Success? && top.value.List? ==>
      var chosen := SelectPlatform(top.value.platforms, option);
      && (chosen.Failure? ==> r == Failure(chosen.error))
      && (chosen.Success? && chosen.value.Image? ==> r == chosen.value.layers)
      && (chosen.Success? && !chosen.value.Image? ==> r == Failure(NotAnImage))
  {
    var m :- top;
    var chosen :- if m.List? then SelectPlatform(m.platforms, option) else Success(m);
    if chosen.Image? then chosen.layers else Failure(NotAnImage)
  }

  /** An empty platform option and "local" resolve every manifest alike. */
  lemma EmptyOptionMeansLocal(top: Result<Manifest, Error>)
    ensures ResolveImage(top, "") == ResolveImage(top, "local")
  {
  }

  /** A list resolves exactly as the manifest pulled for the chosen platform would on its own. */
  lemma ListResolvesLikeItsPlatform(platforms: map<string, Result<Manifest, Error>>, option: string)
    requires PlatformName(option) in platforms
    requires platforms[PlatformName(option)].Success? ==> !platforms[PlatformName(option)].value.List?
    ensures platforms[PlatformName(option)].Success? ==>
      ResolveImage(Success(List(platforms)), option) == ResolveImage(platforms[PlatformName(option)], option)
    ensures platforms[PlatformName(option)].Failure? ==>
      ResolveImage(Success(List(platforms)), option) == Failure(PlatformPull(platforms[PlatformName(option)].error))
  {
  }

  /** Lists are resolved one level only: a list whose chosen entry is again a list is not an image. */
  lemma NestedListIsNotAnImage(platforms: map<string, Result<Manifest, Error>>, option: string)
    requires PlatformName(option) in platforms
    requires platforms[PlatformName(option)].Success? && platforms[PlatformName(option)].value.List?
    ensures ResolveImage(Success(List(platforms)), option) == Failure(NotAnImage)
  {
  }

  // ----- squashr.go: bottom-up extraction -----

  /** The directory after the loop, the error it stopped with, and the layer indexes it requested, in request order. */
  datatype Report = Report(fs: FileSystem, err: Option<Error>, fetched: seq<nat>)

  /** The outcome one failed layer is reported with. */
  function LayerError(layer: RemoteLayer, i: nat, fs: FileSystem): Option<Error> {
    match layer
    case FetchFailed(e) => Some(LayerFailed(Pull, i, e))
    case ConvertFailed(e) => Some(LayerFailed(Convert, i, e))
    case ReaderFailed(e) => Some(LayerFailed(OpenReader, i, e))
    case Fetched(a) =>
      var x := Untar(fs, a);
      if x.err.Some? then Some(LayerFailed(Extract, i, x.err.value)) else None
  }

  /** The loop `for i, layer := range layers` from layer i on, all into the same directory. */
  function ExtractLayers(fs: FileSystem, layers: seq<RemoteLayer>, i: nat): (r: Report)
    requires i <= |layers|
    ensures |r.fetched| <= |layers| - i
    ensures forall k | 0 <= k < |r.fetched| :: r.fetched[k] == i + k
    ensures r.err.None? ==> |r.fetched| == |layers| - i
    ensures r.err.Some? ==> |r.fetched| > 0 && r.err.value.LayerFailed? && r.err.value.index == i + |r.fetched| - 1
    ensures forall q | q in fs :: q in r.fs
    ensures Tree(fs) ==> Tree(r.fs)
    decreases |layers| - i
  {
    if i == |layers| then Report(fs, None, [])
    else
      match layers[i]
      case FetchFailed(e) => Report(fs, Some(LayerFailed(Pull, i, e)), [i])
      case ConvertFailed(e) => Report(fs, Some(LayerFailed(Convert, i, e)), [i])
      case ReaderFailed(e) => Report(fs, Some(LayerFailed(OpenReader, i, e)), [i])
      case Fetched(a) =>
        var x := Untar(fs, a);
        if x.err.Some? then Report(x.fs, Some(LayerFailed(Extract, i, x.err.value)), [i])
        else
          var rest := ExtractLayers(x.fs, layers, i + 1);
          Report(rest.fs, rest.err, [i] + rest.fetched)
  }

  /** squashr.go Squash(image, outputDir): out is what outputDir holds beforehand. */
  function SquashImage(top: Result<Manifest, Error>, option: string, out: FileSystem): (r: Report)
    ensures ResolveImage(top, option).Failure? ==> r == Report(out, Some(ResolveImage(top, option).error), [])
    ensures ResolveImage(top, option) == Success([]) ==> r == Report(out, None, [])
    ensures forall q | q in out :: q in r.fs
  {
    match ResolveImage(top, option)
    case Failure(e) => Report(out, Some(e), [])
    case Success(layers) => ExtractLayers(out, layers, 0)
  }

  /** The archives of layers that were all fetched. */
  function FetchedArchives(layers: seq<RemoteLayer>): (r: seq<Archive>)
    requires forall k | 0 <= k < |layers| :: layers[k].Fetched?
    ensures |r| == |layers| && forall k | 0 <= k < |layers| :: r[k] == layers[k].archive
  {
    if |layers| == 0 then [] else [layers[0].archive] + FetchedArchives(layers[1..])
  }

  /** A successful run is the plain left-to-right fold of the layer archives. */
  lemma {:induction false} ExtractLayersIsFold(fs: FileSystem, layers: seq<RemoteLayer>, i: nat)
    requires i <= |layers| && ExtractLayers(fs, layers, i).err.None?
    ensures forall k | i <= k < |layers| :: layers[k].Fetched?
    ensures var fold := FoldArchives(fs, FetchedArchives(layers[i..]));
      fold.err.None? && fold.fs == ExtractLayers(fs, layers, i).fs
    decreases |layers| - i
  {
    if i < |layers| {
      var x := Untar(fs, layers[i].archive);
      ExtractLayersIsFold(x.fs, layers, i + 1);
      assert layers[i..][1..] == layers[i + 1..];
    }
  }

  /**
   * The run stops at the first failing layer k: the layers before it were
   * all extracted without error, and k's failure, wrapped with k, is the result.
   * Nothing is rolled back: the directory keeps the layers below k and
   * whatever layer k wrote before it failed.
   */
  lemma {:induction false} ExtractLayersFailsAt(fs: FileSystem, layers: seq<RemoteLayer>, i: nat)
    requires i <= |layers| && ExtractLayers(fs, layers, i).err.Some?
    ensures var r := ExtractLayers(fs, layers, i);
      var k := r.err.value.index;
      && i <= k < |layers|
      && ExtractLayers(fs, layers[..k], i).err.None?
      && r.err == LayerError(layers[k], k, ExtractLayers(fs, layers[..k], i).fs)
      && r.fs == (if layers[k].Fetched? then Untar(ExtractLayers(fs, layers[..k], i).fs, layers[k].archive).fs
                  else ExtractLayers(fs, layers[..k], i).fs)
    decreases |layers| - i
  {
    var r := ExtractLayers(fs, layers, i);
    var k := r.err.value.index;
    if k > i {
      var x := Untar(fs, layers[i].archive);
      ExtractLayersFailsAt(x.fs, layers, i + 1);
      assert layers[..k][i] == layers[i];
    }
  }

  /**
   * Squash extracts straight into outputDir, so a layer failing after the
   * image resolved leaves the fold of the layers below it plus whatever the
   * failing layer wrote, not the directory the run started from.
   */
  lemma SquashImageLeavesResidue(top: Result<Manifest, Error>, option: string, out: FileSystem)
    requires ResolveImage(top, option).Success? && SquashImage(top, option, out).err.Some?
    ensures var layers := ResolveImage(top, option).value;
      var r := SquashImage(top, option, out);
      var k := r.err.value.index;
      && 0 <= k < |layers|
      && (forall j | 0 <= j < k :: layers[j].Fetched?)
      && var below := FoldArchives(out, FetchedArchives(layers[..k]));
         && below.err.None?
         && r.err == LayerError(layers[k], k, below.fs)
         && r.fs == (if layers[k].Fetched? then Untar(below.fs, layers[k].archive).fs else below.fs)
  {
    var layers := ResolveImage(top, option).value;
    var r := ExtractLayers(out, layers, 0);
    assert SquashImage(top, option, out) == r;
    ExtractLayersFailsAt(out, layers, 0);
    var k := r.err.value.index;
    var prefix := layers[..k];
    var before := ExtractLayers(out, prefix, 0);
    ExtractLayersIsFold(out, prefix, 0);
    assert prefix[0..] == prefix;
    assert forall j | 0 <= j < k :: layers[j] == prefix[j];
    assert FoldArchives(out, FetchedArchives(prefix)).fs == before.fs;
  }

  // ----- image.go: top-down lookup -----

  /** What reading a layer for one file yields. */
  datatype Probe =
    | Present(member: Header, cut: Option<string>)  // found; cut is the error its contents end with, if truncated
    | Absent                                        // types.ErrFileNotFound
    | Unreadable(reason: string)                    // any other reader error

  /** btr.ReadFile: the first member, in archive order, whose cleaned name is p. */
  function FindMember(members: seq<Header>, tail: Tail, p: Path): (r: Probe)
    ensures r.Absent? <==> tail == EndOfArchive && forall k | 0 <= k < |members| :: Target(members[k]) != p
    ensures r.Present? ==> Target(r.member) == p
    ensures r.Present? && r.cut.None? ==>
      exists k | 0 <= k < |members| :: members[k] == r.member && forall j | 0 <= j < k :: Target(members[j]) != p
    ensures r.Present? && r.cut.Some? ==>
      && tail.Truncated? && r.member == tail.member
      && forall k | 0 <= k < |members| :: Target(members[k]) != p
    ensures (exists k | 0 <= k < |members| :: Target(members[k]) == p) ==> r.Present? && r.cut.None?
    ensures tail.Truncated? && Target(tail.member) == p && (forall k | 0 <= k < |members| :: Target(members[k]) != p) ==>
      r == Present(tail.member, Some(tail.reason))
    decreases |members|
  {
    if |members| == 0 then
      match tail
      case EndOfArchive => Absent
      case Corrupt(reason) => Unreadable(reason)
      case Truncated(h, reason) => if Target(h) == p then Present(h, Some(reason)) else Unreadable(reason)
    else if Target(members[0]) == p then Present(members[0], None)
    else
      var r := FindMember(members[1..], tail, p);
      assert forall k | 0 <= k < |members[1..]| :: members[1..][k] == members[k + 1];
      assert r.Present? && r.cut.None? ==>
        exists k | 1 <= k < |members| :: members[k] == r.member && forall j | 0 <= j < k :: Target(members[j]) != p;
      r
  }

  /** Layer l was fetched and reading it for p found a member. */
  predicate Holds(l: RemoteLayer, p: Path) {
    l.Fetched? && FindMember(l.archive.members, l.archive.tail, p).Present?
  }

  /** The error that stops the lookup at layer i, tagged with the stage that failed, or None when layer i does not stop it. */
  function ProbeError(l: RemoteLayer, i: nat, p: Path): Option<Error> {
    match l
    case FetchFailed(e) => Some(LayerFailed(Pull, i, e))
    case ConvertFailed(e) => Some(LayerFailed(Convert, i, e))
    case ReaderFailed(e) => Some(LayerFailed(Lookup, i, e))
    case Fetched(a) =>
      match FindMember(a.members, a.tail, p)
      case Unreadable(reason) => Some(LayerFailed(Lookup, i, ReadFailed(reason)))
      case _ => None
  }

  /** Layer l was fetched and reading it for p reported file-not-found. */
  predicate Lacks(l: RemoteLayer, p: Path) {
    l.Fetched? && FindMember(l.archive.members, l.archive.tail, p).Absent?
  }

  /** Where the top-down search stopped. */
  datatype Lookup =
    | Hit(index: nat, member: Header, cut: Option<string>)
    | Miss
    | Abort(error: Error)

  /** The loop `for i := len(layers) - 1; i >= 0; i--` over the n lowest layers. */
  function Search(layers: seq<RemoteLayer>, n: nat, p: Path): (r: Lookup)
    requires n <= |layers|
    ensures r.Hit? ==>
      && r.index < n && layers[r.index].Fetched?
      && FindMember(layers[r.index].archive.members, layers[r.index].archive.tail, p) == Present(r.member, r.cut)
      && forall k | r.index < k < n :: Lacks(layers[k], p)
    ensures r.Miss? <==> forall k | 0 <= k < n :: Lacks(layers[k], p)
    ensures r.Abort? ==>
      && r.error.LayerFailed? && r.error.index < n
      && Some(r.error) == ProbeError(layers[r.error.index], r.error.index, p)
      && forall k | r.error.index < k < n :: Lacks(layers[k], p)
    decreases n
  {
    if n == 0 then Miss
    else
      var i := n - 1;
      match layers[i]
      case FetchFailed(e) => Abort(LayerFailed(Pull, i, e))
      case ConvertFailed(e) => Abort(LayerFailed(Convert, i, e))
      case ReaderFailed(e) => Abort(LayerFailed(Lookup, i, e))
      case Fetched(a) =>
        match FindMember(a.members, a.tail, p)
        case Present(h, cut) => Hit(i, h, cut)
        case Absent => Search(layers, i, p)
        case Unreadable(reason) => Abort(LayerFailed(Lookup, i, ReadFailed(reason)))
  }

  /**
   * A file that is present is found: when layer i holds it and every
   * layer above lacks it, the search hits at layer i with what reading
   * layer i found. This follows from Search's own clauses on misses and
   * aborts, which leave no other outcome.
   */
  lemma SearchFindsHolder(layers: seq<RemoteLayer>, n: nat, p: Path, i: nat)
    requires i < n <= |layers|
    requires Holds(layers[i], p) && forall k | i < k < n :: Lacks(layers[k], p)
    ensures Search(layers, n, p).Hit? && Search(layers, n, p).index == i
    ensures var probe := FindMember(layers[i].archive.members, layers[i].archive.tail, p);
      Search(layers, n, p) == Hit(i, probe.member, probe.cut)
  {
  }

  /** Both directions together: a hit exactly when some layer holds the file and all layers above lack it. */
  lemma SearchHitsIff(layers: seq<RemoteLayer>, n: nat, p: Path)
    requires n <= |layers|
    ensures Search(layers, n, p).Hit? <==>
      exists i | 0 <= i < n :: Holds(layers[i], p) && forall k | i < k < n :: Lacks(layers[k], p)
  {
    var r := Search(layers, n, p);
    if r.Hit? {
      assert Holds(layers[r.index], p);
    } else {
      forall i | 0 <= i < n && Holds(layers[i], p)
        ensures !(forall k | i < k < n :: Lacks(layers[k], p))
      {
        if forall k | i < k < n :: Lacks(layers[k], p) {
          SearchFindsHolder(layers, n, p, i);
        }
      }
    }
  }

  /** The search written as the source's counting-down loop. */
  method FindTopmost(layers: seq<RemoteLayer>, p: Path) returns (r: Lookup)
    ensures r == Search(layers, |layers|, p)
  {
    var i := |layers|;
    while i > 0
      invariant 0 <= i <= |layers|
      invariant Search(layers, i, p) == Search(layers, |layers|, p)
    {
      var k := i - 1;
      match layers[k] {
        case FetchFailed(e) =>
          return Abort(LayerFailed(Pull, k, e));
        case ConvertFailed(e) =>
          return Abort(LayerFailed(Convert, k, e));
        case ReaderFailed(e) =>
          return Abort(LayerFailed(Lookup, k, e));
        case Fetched(a) =>
          var probe := FindMember(a.members, a.tail, p);
          if probe.Present? {
            return Hit(k, probe.member, probe.cut);
          } else if probe.Unreadable? {
            return Abort(LayerFailed(Lookup, k, ReadFailed(probe.reason)));
          }
      }
      i := k;
    }
    return Miss;
  }

  /** The requested filename with one leading "/" removed. */
  function RequestedName(filename: string): (name: string)
    ensures |filename| > 0 && filename[0] == '/' ==> filename == "/" + name
    ensures (|filename| == 0 || filename[0] != '/') ==> name == filename
  {
    TrimPrefix(filename, "/")
  }

  /**
   * runImageGetFile, lines 157-209: resolve the image, search its layers
   * from the top, copy out the first hit; ErrNotFound when every layer
   * lacks the file.
   */
  function GetFile(top: Result<Manifest, Error>, option: string, filename: string): (r: Result<Bytes, Error>)
    ensures ResolveImage(top, option).Failure? ==> r == Failure(ResolveImage(top, option).error)
  {
    var layers :- ResolveImage(top, option);
    match Search(layers, |layers|, ToPath(RequestedName(filename)))
    case Miss => Failure(NotFound)
    case Abort(e) => Failure(e)
    case Hit(_, h, cut) => if cut.Some? then Failure(ReadFailed(cut.value)) else Success(h.body)
  }

  /** The lookup reports not-found exactly when every layer was read and lacks the file. */
  lemma GetFileNotFoundIff(top: Result<Manifest, Error>, option: string, filename: string)
    requires ResolveImage(top, option).Success?
    ensures var layers := ResolveImage(top, option).value;
      GetFile(top, option, filename) == Failure(NotFound) <==>
        forall k | 0 <= k < |layers| :: Lacks(layers[k], ToPath(RequestedName(filename)))
  {
  }
}

=== FILE: retar.dfy ===
/**
 * helpers/tar.go Tar: re-encoding a directory as one archive. Only
 * regular files are written, each named by stripping src from the walked
 * path and trimming one leading separator.
 */
module Retar {
  import opened Wrappers
  import opened Paths
  import opened Errors
  import opened FileSystems

  /** A member of the output archive: a name, and a regular file's permission bits and contents. */
  datatype OutputEntry = OutputEntry(name: string, mode: int, body: Bytes)

  /** The string filepath.Walk passes to its callback for the node at p below src. */
  function WalkedName(src: string, p: Path): string {
    if |p| == 0 then src else src + "/" + Join(p)
  }

  /**
   * header.Name: every occurrence of src removed from the walked name, then
   * one leading "/" trimmed. A walked name starts with src; when src does
   * not occur again after that prefix, the name is the rest less one "/".
   */
  function EntryName(src: string, file: string): (name: string)
    ensures |name| <= |file|
    ensures !Occurs(src, file) ==> name == TrimPrefix(file, "/")
    ensures |src| > 0 && src <= file && !Occurs(src, file[|src|..]) ==> name == TrimPrefix(file[|src|..], "/")
  {
    var removed := RemoveAll(file, src);
    assert !Occurs(src, file) ==> removed == file by {
      if !Occurs(src, file) {
        RemoveAllWithoutOccurrence(file, src);
      }
    }
    assert |src| > 0 && src <= file && !Occurs(src, file[|src|..]) ==> removed == file[|src|..] by {
      if |src| > 0 && src <= file && !Occurs(src, file[|src|..]) {
        var rest := file[|src|..];
        assert file == src + rest;
        RemoveLeadingSource(src, rest);
        RemoveAllWithoutOccurrence(rest, src);
      }
    }
    TrimPrefix(removed, "/")
  }

  function Emit(src: string, p: Path, n: Node): OutputEntry
    requires n.File?
  {
    OutputEntry(EntryName(src, WalkedName(src, p)), n.mode, n.body)
  }

  /**
   * Tar(src, outputTar): fails when src does not exist, before writing
   * anything; otherwise one member per regular file, directories dropped.
   */
  function Tar(src: string, fs: FileSystem): (r: Result<set<OutputEntry>, Error>)
    ensures r.Failure? <==> [] !in fs
    ensures r.Failure? ==> r.error == NoSuchFile([])
  {
    if [] !in fs then Failure(NoSuchFile([]))
    else Success(set p | p in fs && fs[p].File? :: Emit(src, p, fs[p]))
  }

  /** src does not reappear inside any walked path below it. */
  predicate SourceFree(src: string, fs: FileSystem) {
    forall p | p in fs && |p| > 0 :: !Occurs(src, "/" + Join(p))
  }

  lemma RemoveLeadingSource(src: string, rest: string)
    requires |src| > 0
    ensures RemoveAll(src + rest, src) == RemoveAll(rest, src)
  {
    var s := src + rest;
    assert s[..|src|] == src;
    assert s[|src|..] == rest;
  }

  lemma RootEntryName(src: string)
    ensures EntryName(src, src) == ""
  {
    if |src| > 0 {
      RemoveLeadingSource(src, "");
      assert src + "" == src;
    }
  }

  lemma TrimSlash(x: string)
    ensures TrimPrefix("/" + x, "/") == x
  {
    assert ("/" + x)[..1] == "/";
  }

  lemma NestedEntryName(src: string, p: Path)
    requires |p| > 0 && !Occurs(src, "/" + Join(p))
    ensures EntryName(src, src + "/" + Join(p)) == Join(p)
  {
    var rest := "/" + Join(p);
    assert src + "/" + Join(p) == src + rest;
    RemoveAllWithoutOccurrence(rest, src);
    if |src| > 0 {
      RemoveLeadingSource(src, rest);
    }
    TrimSlash(Join(p));
  }

  /** When src does not reappear below itself, the member name is exactly the path relative to src. */
  lemma EntryNameIsRelative(src: string, p: Path)
    requires |p| == 0 || !Occurs(src, "/" + Join(p))
    ensures EntryName(src, WalkedName(src, p)) == Join(p)
  {
    if |p| == 0 {
      RootEntryName(src);
    } else {
      NestedEntryName(src, p);
    }
  }

  /** The rule removes src wherever it occurs: with src "/d", the file /d/a/d/b is named "a/b", not "a/d/b". */
  lemma EntryNameDropsInnerSource()
    ensures EntryName("/d", WalkedName("/d", ["a", "d", "b"])) == "a/b"
  {
    var file := WalkedName("/d", ["a", "d", "b"]);
    assert file == "/d/a/d/b";
    assert RemoveAll("/d/b", "/d") == "/b" by {
      assert RemoveAll("/b", "/d") == "/b" by {
        assert RemoveAll("b", "/d") == "b";
        assert "/b"[..2][1] != "/d"[1];
      }
    }
    assert RemoveAll("a/d/b", "/d") == "a/b" by {
      assert "a/d/b"[..2][0] != "/d"[0];
      assert "a/d/b"[1..] == "/d/b";
      assert "/d/b"[..2] == "/d";
      assert "/d/b"[2..] == "/b";
    }
    assert RemoveAll(file, "/d") == "/a/b" by {
      assert file[..2] == "/d";
      assert file[2..] == "/a/d/b";
      assert "/a/d/b"[..2][1] != "/d"[1];
      assert "/a/d/b"[1..] == "a/d/b";
    }
    assert "/a/b"[1..] == "a/b";
  }

  /**
   * In a directory tree whose root exists, the output lists exactly the
   * regular files, each under its path relative to src, with its mode and
   * contents; cleaning a member's name gives back the file's path.
   */
  lemma TarListsRegularFiles(src: string, fs: FileSystem)
    requires Tree(fs) && [] in fs && SourceFree(src, fs)
    ensures forall e | e in Tar(src, fs).value ::
      ToPath(e.name) in fs && fs[ToPath(e.name)] == File(e.mode, e.body)
    ensures forall p | p in fs && fs[p].File? ::
      OutputEntry(Join(p), fs[p].mode, fs[p].body) in Tar(src, fs).value
  {
    forall p | p in fs && fs[p].File?
      ensures Emit(src, p, fs[p]) == OutputEntry(Join(p), fs[p].mode, fs[p].body)
      ensures ToPath(Join(p)) == p
    {
      EntryNameIsRelative(src, p);
      ToPathOfJoin(p);
    }
  }

  /** Directories never reach the output: adding one anywhere below the root leaves the archive unchanged. */
  lemma TarIgnoresDirectories(src: string, fs: FileSystem, q: Path)
    requires [] in fs && q !in fs
    ensures Tar(src, fs[q := Dir]) == Tar(src, fs)
  {
    var more := fs[q := Dir];
    assert forall p | p in more && more[p].File? :: p in fs && fs[p] == more[p];
    assert forall p | p in fs && fs[p].File? :: p in more && more[p] == fs[p];
    var a := set p | p in more && more[p].File? :: Emit(src, p, more[p]);
    var b := set p | p in fs && fs[p].File? :: Emit(src, p, fs[p]);
    assert a == b;
  }
}

=== FILE: saved_image.dfy ===
/**
 * squash/squash.go: squashing a `docker save` archive. The archive is
 * unpacked, manifest.json names the layers, each layer is extracted in
 * order into one directory, and that directory is re-tarred and renamed
 * onto the destination.
 */
module SavedImage {
  import opened Wrappers
  import opened Paths
  import opened Errors
  import opened FileSystems
  import opened Archives
  import opened Overlay
  import opened Retar

  /** One element of the manifest.json array, already decoded. */
  datatype ManifestEntry = ManifestEntry(config: string, repoTags: seq<string>, layers: seq<string>)

  /**
   * GetLayers after decoding: the Layers of element 0. Indexing an empty
   * array panics in Go; here it is the error IndexOutOfRange.
   */
  function GetLayers(manifest: seq<ManifestEntry>): (r: Result<seq<string>, Error>)
    ensures r.Failure? <==> |manifest| == 0
    ensures r.Failure? ==> r.error == IndexOutOfRange
  {
    if |manifest| == 0 then Failure(IndexOutOfRange) else Success(manifest[0].layers)
  }

  /** Only the first image of the array matters; the others never influence the layer list. */
  lemma GetLayersReadsFirstImage(first: ManifestEntry, rest: seq<ManifestEntry>)
    ensures GetLayers([first] + rest) == Success(first.layers)
    ensures forall other: seq<ManifestEntry> :: GetLayers([first] + other) == GetLayers([first] + rest)
  {
  }

  /** The manifest of the repository's own test fixture, decoded: one image with four layers. */
  lemma GetLayersFixture()
    ensures var r := GetLayers([ManifestEntry(
      "77414ae281db98275afa7659731a495fb933ede750b9d758e8dd17891b976ad6.json",
      ["test:latest"],
      ["df13cc887c6ff0faabec81bc4bb8b72900db35e7d107e66a56b500eb0845396e/layer.tar",
       "a0cb8277c94ef0ce6a52219b419c19211227757f85d1a80cc64c256aa1a502a2/layer.tar",
       "c6d2d3dbb97a114b523674aaf9c35cfa04dcf4ba2936bc350050e015a0391073/layer.tar",
       "dc509d83dbc24e15bab860dcb0e4c2f18c15369beabea0e5661b6935de2ee5df/layer.tar"])]);
      r.Success? && |r.value| == 4
  {
  }

  /** The unpacked saved image and the layer file names its manifest lists, bottom layer first. */
  datatype Unpacked = Unpacked(orig: FileSystem, layers: seq<string>)

  const ManifestPath: Path := ["manifest.json"]

  /**
   * Everything before the layer loop: extract the opened saved image into
   * the freshly made `orig` directory, read orig/manifest.json, decode it,
   * and take the first element's layers. Decoding the JSON is a parameter.
   */
  function Unpack(image: Result<Archive, Error>, decodeManifest: Bytes -> Result<seq<ManifestEntry>, Error>): (r: Result<Unpacked, Error>)
    ensures image.Failure? ==> r == Failure(image.error)
    ensures image.Success? ==>
      var x := Untar(map[[] := Dir], image.value);
      && (x.err.Some? ==> r == Failure(x.err.value))
      && (x.err.None? ==>
            var data := ReadFile(x.fs, ManifestPath);
            && (data.Failure? ==> r == Failure(data.error))
            && (data.Success? ==>
                  var decoded := decodeManifest(data.value);
                  && (decoded.Failure? ==> r == Failure(decoded.error))
                  && (decoded.Success? && |decoded.value| == 0 ==> r == Failure(IndexOutOfRange))
                  && (decoded.Success? && |decoded.value| > 0 ==>
                        r == Success(Unpacked(x.fs, decoded.value[0].layers)))))
  {
    var a :- image;
    var x := Untar(map[[] := Dir], a);
    if x.err.Some? then Failure(x.err.value)
    else
      var data :- ReadFile(x.fs, ManifestPath);
      var manifest :- decodeManifest(data);
      var layers :- GetLayers(manifest);
      Success(Unpacked(x.fs, layers))
  }

  /** What a successful unpack holds: the extracted image, and the first image's layers as orig/manifest.json lists them. */
  lemma UnpackedLayersComeFromManifest(image: Result<Archive, Error>, decodeManifest: Bytes -> Result<seq<ManifestEntry>, Error>)
    requires Unpack(image, decodeManifest).Success?
    ensures var u := Unpack(image, decodeManifest).value;
      && image.Success? && u.orig == Untar(map[[] := Dir], image.value).fs
      && ReadFile(u.orig, ManifestPath).Success?
      && decodeManifest(ReadFile(u.orig, ManifestPath).value).Success?
      && GetLayers(decodeManifest(ReadFile(u.orig, ManifestPath).value).value) == Success(u.layers)
  {
  }

  /**
   * The layer list comes from the saved image itself: when it extracts
   * cleanly and its last regular member named manifest.json decodes to a
   * non-empty array, the layers are that array's first element's Layers.
   */
  lemma UnpackReadsLastManifestMember(image: Result<Archive, Error>, decodeManifest: Bytes -> Result<seq<ManifestEntry>, Error>, j: nat)
    requires image.Success? && Untar(map[[] := Dir], image.value).err.None?
    requires var members := image.value.members;
      && j < |members| && members[j].typeflag == TypeReg && Target(members[j]) == ManifestPath
      && NotWrittenBy(members[j + 1..], ManifestPath)
    requires decodeManifest(image.value.members[j].body).Success?
    requires |decodeManifest(image.value.members[j].body).value| > 0
    ensures Unpack(image, decodeManifest).Success?
    ensures Unpack(image, decodeManifest).value.layers == decodeManifest(image.value.members[j].body).value[0].layers
  {
    var a := image.value;
    LastWriterWins(map[[] := Dir], a.members, j);
  }

  /** os.Open(path.Join(origDir, layer)) and the tar decoding of its bytes, which is a parameter. */
  function OpenLayer(orig: FileSystem, name: string, decodeTar: Bytes -> Archive): (r: Result<Archive, Error>)
    ensures r.Success? <==> ToPath(name) in orig && orig[ToPath(name)].File?
    ensures r.Success? ==> r.value == decodeTar(orig[ToPath(name)].body)
  {
    var bytes :- ReadFile(orig, ToPath(name));
    Success(decodeTar(bytes))
  }

  function OpenLayers(orig: FileSystem, names: seq<string>, decodeTar: Bytes -> Archive): (r: seq<Result<Archive, Error>>)
    ensures |r| == |names|
    ensures forall i | 0 <= i < |names| :: r[i] == OpenLayer(orig, names[i], decodeTar)
  {
    seq(|names|, i requires 0 <= i < |names| => OpenLayer(orig, names[i], decodeTar))
  }

  /** The archives of layers that all opened. */
  function Opened(layers: seq<Result<Archive, Error>>): (r: seq<Archive>)
    requires forall i | 0 <= i < |layers| :: layers[i].Success?
    ensures |r| == |layers| && forall i | 0 <= i < |layers| :: r[i] == layers[i].value
  {
    if |layers| == 0 then [] else [layers[0].value] + Opened(layers[1..])
  }

  /** The layer loop: extract each opened layer into the same directory, returning at the first error. */
  function FoldLayers(fs: FileSystem, layers: seq<Result<Archive, Error>>): (r: Extraction)
    ensures forall q | q in fs :: q in r.fs
    ensures Tree(fs) ==> Tree(r.fs)
    ensures (forall i | 0 <= i < |layers| :: layers[i].Success?) ==>
      r == FoldArchives(fs, Opened(layers))
    decreases |layers|
  {
    if |layers| == 0 then Extraction(fs, None)
    else if layers[0].Failure? then Extraction(fs, Some(layers[0].error))
    else
      var x := Untar(fs, layers[0].value);
      if x.err.Some? then x else FoldLayers(x.fs, layers[1..])
  }

  /** Layers are applied left to right: one more layer acts on what the earlier ones left, unless they already failed. */
  lemma {:induction false} FoldLayersAppend(fs: FileSystem, layers: seq<Result<Archive, Error>>, last: Result<Archive, Error>)
    ensures var before := FoldLayers(fs, layers);
      FoldLayers(fs, layers + [last]) ==
        if before.err.Some? then before
        else if last.Failure? then Extraction(before.fs, Some(last.error))
        else Untar(before.fs, last.value)
    decreases |layers|
  {
    if |layers| == 0 {
      assert layers + [last] == [last];
    } else {
      assert (layers + [last])[1..] == layers[1..] + [last];
      if layers[0].Success? {
        FoldLayersAppend(Untar(fs, layers[0].value).fs, layers[1..], last);
      }
    }
  }

  /** After the first failing layer nothing more is opened or extracted: appending layers changes nothing. */
  lemma {:induction false} FoldLayersStopsAtFailure(fs: FileSystem, layers: seq<Result<Archive, Error>>, more: seq<Result<Archive, Error>>)
    requires FoldLayers(fs, layers).err.Some?
    ensures FoldLayers(fs, layers + more) == FoldLayers(fs, layers)
    decreases |layers|
  {
    assert |layers| > 0;
    assert (layers + more)[0] == layers[0];
    assert (layers + more)[1..] == layers[1..] + more;
    if layers[0].Success? && Untar(fs, layers[0].value).err.None? {
      FoldLayersStopsAtFailure(Untar(fs, layers[0].value).fs, layers[1..], more);
    }
  }

  /** The directory the layers are extracted into: tmpDir/dst, which nothing creates beforehand. */
  function DstDir(workDir: string): string {
    workDir + "/dst"
  }

  /** What the destination path holds after a run, and the error the run returned, if any. */
  datatype SquashRun = SquashRun(dest: Option<set<OutputEntry>>, err: Option<Error>)

  /**
   * Squash(inputTar, outputTar). workDir is the temporary directory
   * os.MkdirTemp returned; dest is what outputTar held before the run.
   */
  function Squash(
    workDir: string,
    image: Result<Archive, Error>,
    decodeManifest: Bytes -> Result<seq<ManifestEntry>, Error>,
    decodeTar: Bytes -> Archive,
    dest: Option<set<OutputEntry>>): (r: SquashRun)
    ensures r.err.Some? ==> r.dest == dest
    ensures r.err.None? ==> r.dest.Some?
  {
    match Unpack(image, decodeManifest)
    case Failure(e) => SquashRun(dest, Some(e))
    case Success(u) =>
      var folded := FoldLayers(map[], OpenLayers(u.orig, u.layers, decodeTar));
      if folded.err.Some? then SquashRun(dest, folded.err)
      else
        match Tar(DstDir(workDir), folded.fs)
        case Failure(e) => SquashRun(dest, Some(e))
        case Success(out) => SquashRun(Some(out), None)
  }

  /** The layers of an unpacked image, opened and folded into the initially absent dst directory. */
  function Squashed(u: Unpacked, decodeTar: Bytes -> Archive): Extraction {
    FoldLayers(map[], OpenLayers(u.orig, u.layers, decodeTar))
  }

  /**
   * A run succeeds exactly when unpacking, every layer and the final Tar
   * succeed; the destination then holds Tar of the folded directory.
   */
  lemma SquashSucceedsIff(
    workDir: string,
    image: Result<Archive, Error>,
    decodeManifest: Bytes -> Result<seq<ManifestEntry>, Error>,
    decodeTar: Bytes -> Archive,
    dest: Option<set<OutputEntry>>)
    ensures var r := Squash(workDir, image, decodeManifest, decodeTar, dest);
      r.err.None? <==>
        && Unpack(image, decodeManifest).Success?
        && Squashed(Unpack(image, decodeManifest).value, decodeTar).err.None?
        && [] in Squashed(Unpack(image, decodeManifest).value, decodeTar).fs
    ensures var r := Squash(workDir, image, decodeManifest, decodeTar, dest);
      r.err.None? ==>
        r.dest == Some(Tar(DstDir(workDir), Squashed(Unpack(image, decodeManifest).value, decodeTar).fs).value)
  {
  }

  /** With no layers the dst directory is never made, so the existence check in Tar fails the run. */
  lemma ZeroLayersFail(
    workDir: string,
    image: Result<Archive, Error>,
    decodeManifest: Bytes -> Result<seq<ManifestEntry>, Error>,
    decodeTar: Bytes -> Archive,
    dest: Option<set<OutputEntry>>)
    requires Unpack(image, decodeManifest).Success? && Unpack(image, decodeManifest).value.layers == []
    ensures Squash(workDir, image, decodeManifest, decodeTar, dest) == SquashRun(dest, Some(NoSuchFile([])))
  {
  }

  /** Layers holding no directory or regular-file member never create dst either, so the run fails. */
  lemma InertLayersFail(
    workDir: string,
    image: Result<Archive, Error>,
    decodeManifest: Bytes -> Result<seq<ManifestEntry>, Error>,
    decodeTar: Bytes -> Archive,
    dest: Option<set<OutputEntry>>)
    requires Unpack(image, decodeManifest).Success?
    requires var u := Unpack(image, decodeManifest).value;
      forall i | 0 <= i < |u.layers| ::
        OpenLayer(u.orig, u.layers[i], decodeTar).Success? ==> Inert(OpenLayer(u.orig, u.layers[i], decodeTar).value)
    ensures Squash(workDir, image, decodeManifest, decodeTar, dest).err.Some?
    ensures Squash(workDir, image, decodeManifest, decodeTar, dest).dest == dest
  {
    var u := Unpack(image, decodeManifest).value;
    InertFoldStaysEmpty(OpenLayers(u.orig, u.layers, decodeTar));
  }

  lemma {:induction false} InertFoldStaysEmpty(layers: seq<Result<Archive, Error>>)
    requires forall i | 0 <= i < |layers| :: layers[i].Success? ==> Inert(layers[i].value)
    ensures FoldLayers(map[], layers).err.None? ==> FoldLayers(map[], layers).fs == map[]
    decreases |layers|
  {
    if |layers| > 0 && layers[0].Success? {
      InertArchiveChangesNothing(map[], layers[0].value);
      InertFoldStaysEmpty(layers[1..]);
    }
  }
}

=== FILE: wrappers.dfy ===
/** Failure-compatible result types used throughout the model. */
module Wrappers {

  datatype Option<+T> = None | Some(value: T)

  /** A Go `(value, error)` pair: exactly one of the two is meaningful. */
  datatype Result<+T, +E> = Success(value: T) | Failure(error: E) {

    predicate IsFailure() {
      Failure?
    }

    function PropagateFailure<U>(): Result<U, E>
      requires Failure?
    {
      Failure(error)
    }

    function Extract(): T
      requires Success?
    {
      value
    }
  }
}
